=== FILE: README.md ===
# Weekly booking calendar — a Dafny model

This project models the date and booking logic of `scripts/calendar.js`, the
weekly calendar of the mind-front site. The page shows one working week,
Monday to Friday. Each day is a column with a label (`Seg` … `Sex`), a
`DD/MM` caption and up to three booked `HH:MM` slots; a "more" button opens a
detail panel with all of the day's slots. Previous and Next move the week by
seven days.

The model keeps the program's logic and drops the page:

- `Gregorian` is the proleptic Gregorian calendar. It has a day number
  (days since 0001-01-01), its inverse, day arithmetic with month and year
  rollover, and the weekday in `getDay()` numbering (0 is Sunday).
- `Decimal` holds decimal text: `toString()` of a natural number,
  `padStart` and the digit parser that inverts them.
- `DateKeys` builds the `YYYY-MM-DD` lookup key of a day, as
  `toISOString().split("T")[0]` prints it, and parses it back.
- `WeekAnchor` holds `getSegunda` (the Monday on or before a date) and the
  seven-day moves of Previous and Next.
- `Slots` holds the ascending sort of a day's slots (duplicates kept) and the
  split into three inline slots plus the rest.
- `WeekView` builds the five columns that `renderSemana` draws.
- `DetailPanel` holds the selector entries of `abrirModal`, plus the header
  and body of `atualizarHorariosModal`.
- `CalendarState` is the page state: the anchor and the panel. It has one
  function per user action and `Render`, which derives what the page shows.

The booking table is any map from key to slot list. The current date is a
parameter of `Start`.

Three behaviours of the code are worth stating up front, and the model keeps
each of them:

- **Empty entry.** The code tests an entry with `if (consultas[diaKey])`
  (calendar.js:84 and :198). An empty array passes that test. So a key mapped
  to an empty list gets an empty listing and no placeholder, and the panel
  shows neither slots nor "Nenhum horário registrado".
  `DetailPanel.BodyBranches` states exactly when each branch shows.
- **Panel label.** The columns take their label from their position in the
  week, `diasSemana[i]` (calendar.js:78). The panel header takes its label
  from the weekday of the date it reads back, `diasSemana[(getDay() + 6) % 7]`
  (calendar.js:191). That index is 5 or 6 on a weekend, past the five-entry
  table, so it prints `undefined`. `DetailPanel.HeaderMatchesColumn` proves
  that for Monday to Friday the two labels agree on the model's dates. The
  time-zone line under "Left out" says when the program's own dates break
  that agreement.
- **Navigation with the panel open.** Previous and Next do not touch the
  panel. An open panel keeps its day, and its selector keeps the week it was
  filled with (`CalendarState.Panel.listed`).

## Model

| member | source | states |
|---|---|---|
| `Decimal.FromNat` | scripts/calendar.js:67 | `toString()` of a natural number is a non-empty digit string, one digit long exactly below 10; `FromNatRoundTrip` pins its value |
| `Decimal.FromNatRoundTrip` | scripts/calendar.js:67 | the decimal text of a number reads back as that number |
| `Decimal.PadStart` | scripts/calendar.js:67 | `padStart` fills on the left up to the width, keeps the text as the suffix, and leaves longer text alone |
| `Decimal.LeadingZeros` | scripts/calendar.js:67 | zeros added on the left do not change the value of a digit string |
| `Decimal.ZeroPadded` | scripts/calendar.js:67 | `toString().padStart(w, "0")` gives digits that read back as the number, at least `w` long |
| `Decimal.ZeroPaddedWidth` | scripts/calendar.js:67 | a number below `10^w` is padded to exactly `w` characters, so day and month texts are two characters |
| `Gregorian.DaysInMonth` | scripts/calendar.js:64 | month lengths of the rollover, the table of section 5.7 of RFC 3339: February has 29 days in leap years and 28 otherwise, April, June, September and November have 30, and the other seven months have 31 |
| `Gregorian.YearLength` | scripts/calendar.js:64 | consecutive year starts are one year length apart (365 or 366 days) |
| `Gregorian.DayNumberOrder` | scripts/calendar.js:64 | day numbers order dates as the calendar does, and equal day numbers mean equal dates |
| `Gregorian.FromDayNumber` | scripts/calendar.js:64 | every day number, negative ones included, is the day number of a valid date |
| `Gregorian.DayNumberRoundTrip` | scripts/calendar.js:64 | converting a date to its day number and back gives the same date |
| `Gregorian.AddDays` | scripts/calendar.js:63-64 | `setDate(getDate() + n)` gives a valid date exactly `n` days later, for any `n` |
| `Gregorian.AddDaysUnique` | scripts/calendar.js:63-64 | a date is `d` moved by `n` exactly when its day number is `n` more than `d`'s |
| `Gregorian.AddDaysCompose` | scripts/calendar.js:63-64 | moving by `m` days and then by `n` days is moving by `m + n` days |
| `Gregorian.AddDaysRoundTrip` | scripts/calendar.js:63-64 | moving by `n` days and back by `n` days returns the original date |
| `Gregorian.Weekday` | scripts/calendar.js:38 | `getDay()` lies in 0..6; with the next two rows it is pinned on every date (0 is Sunday) |
| `Gregorian.WeekdayAddDays` | scripts/calendar.js:38 | the weekday of `d` moved by `n` days is `d`'s weekday advanced by `n`, modulo 7 |
| `Gregorian.WeekdayExamples` | scripts/calendar.js:38 | `getDay()` numbering is fixed: 1970-01-01 is a Thursday (4), 2025-09-01 a Monday (1) and 2025-09-07 a Sunday (0) |
| `DateKeys.YearText` | scripts/calendar.js:69 | years 0..9999 print as four digits; other years print as a sign and at least six digits |
| `DateKeys.TwoDigits` | scripts/calendar.js:67 | a number below 100 prints as two digits that read back as the number |
| `DateKeys.JoinFields` | scripts/calendar.js:69 | the key ends in `-MM-DD`: the separators and fields are at fixed offsets from the end, after the year |
| `DateKeys.ParseKey` | scripts/calendar.js:190 | reading a key back yields only valid dates, and `None` for text that names none |
| `DateKeys.YearRoundTrip` | scripts/calendar.js:69 | every year's text reads back as that year |
| `DateKeys.Key` | scripts/calendar.js:69 | every day's key reads back as that day |
| `DateKeys.KeyInjective` | scripts/calendar.js:69 | two days have the same key exactly when they are the same day |
| `DateKeys.KeyIsFullDate` | scripts/calendar.js:69 | for years 0..9999 the key is an RFC 3339 `full-date`, with month and day-of-month in range |
| `DateKeys.TwoDigitsExamples` | scripts/calendar.js:67 | 4 prints as `04`, 9 as `09` and 14 as `14` |
| `WeekAnchor.MondayBasedWeekday` | scripts/calendar.js:38-39 | Sunday becomes 7 and the other days keep their `getDay()` number |
| `WeekAnchor.MondayOf` | scripts/calendar.js:37-41 | the anchor is a valid date at most six days before `d` and not after it; a Sunday goes back six days |
| `WeekAnchor.MondayOfIsMonday` | scripts/calendar.js:37-41 | the anchor of any date is a Monday |
| `WeekAnchor.MondaysAWeekApart` | scripts/calendar.js:37-41 | two Mondays less than seven days apart are the same date |
| `WeekAnchor.MondayOfCharacterization` | scripts/calendar.js:37-41 | a date is the anchor of `d` exactly when it is a Monday in the seven days ending at `d` |
| `WeekAnchor.MondayOfFixesMondays` | scripts/calendar.js:38-40 | a date is its own anchor exactly when it is a Monday, so anchoring twice is anchoring once |
| `WeekAnchor.MondayOfWithinWeek` | scripts/calendar.js:37-41 | every day from a Monday to the following Sunday has that Monday as its anchor |
| `WeekAnchor.NextAnchor` | scripts/calendar.js:143-146 | Next moves the anchor exactly seven days forward |
| `WeekAnchor.PreviousAnchor` | scripts/calendar.js:137-140 | Previous moves the anchor exactly seven days back |
| `WeekAnchor.AdvanceWeeks` | scripts/calendar.js:137-146 | a move by `k` weeks shifts the day number by `7k`, for any integer `k` |
| `WeekAnchor.AdvanceWeeksKeepsWeekday` | scripts/calendar.js:137-146 | moves by whole weeks keep the weekday, so a Monday anchor stays a Monday |
| `WeekAnchor.NextPreviousAreWeekMoves` | scripts/calendar.js:137-146 | Next and Previous are the moves by +1 and −1 weeks |
| `WeekAnchor.NextPreviousInverse` | scripts/calendar.js:137-146 | Next and Previous keep a Monday a Monday and undo each other in either order |
| `WeekAnchor.AdvanceWeeksCompose` | scripts/calendar.js:137-146 | moves by `m` and then `n` weeks equal one move by `m + n` weeks |
| `WeekAnchor.ConstructorYear` | scripts/calendar.js:40 | the `Date(y, m, d)` constructor changes the year exactly for years 0..99 |
| `WeekAnchor.ConstructDate` | scripts/calendar.js:40 | `new Date(y, m, day)` is the first of the month moved by `day - 1` days, in the constructor's year |
| `WeekAnchor.MondayOfAsWritten` | scripts/calendar.js:37-41 | `getSegunda` exactly as written, constructor included, still gives a valid date |
| `WeekAnchor.MondayOfAsWrittenDiffers` | scripts/calendar.js:40 | the as-written `getSegunda` equals `MondayOf` exactly for years outside 0..99 |
| `WeekAnchor.MondayOfAsWrittenExample` | scripts/calendar.js:40 | for 0050-06-15 the as-written result falls in 1950, and the corrected one in year 50 |
| `Slots.NoLater` | scripts/calendar.js:86 | the comparator's order on slot texts, character by character; a prefix sorts no later than the text it starts, and the next four rows make it a total order |
| `Slots.NoLaterReflexive` | scripts/calendar.js:86 | every slot sorts no later than itself |
| `Slots.NoLaterTotal` | scripts/calendar.js:86 | of any two slots, one sorts no later than the other |
| `Slots.NoLaterAntisymmetric` | scripts/calendar.js:86 | two slots that each sort no later than the other are equal |
| `Slots.NoLaterTransitive` | scripts/calendar.js:86 | the slot order is transitive |
| `Slots.Insert` | scripts/calendar.js:86 | inserting into a sorted list keeps it sorted and adds exactly the one slot |
| `Slots.Sort` | scripts/calendar.js:86 | the sorted copy is in ascending order and has the same slots, duplicates included |
| `Slots.SortedPermutationUnique` | scripts/calendar.js:86 | two ascending lists with the same slots are equal |
| `Slots.SortCharacterization` | scripts/calendar.js:199 | a list is the sorted copy of `s` exactly when it is ascending and has the same slots as `s` |
| `Slots.SortIdempotent` | scripts/calendar.js:199 | a sorted list is its own sorted copy, so sorting twice is sorting once |
| `Slots.Split` | scripts/calendar.js:89-90 | the inline part has `min(3, n)` slots, the rest `max(0, n - 3)`; together they are the sorted list, and no inline slot sorts after a hidden one |
| `Slots.SortExample` | scripts/calendar.js:17 | the table's 2025-09-04 list sorts to `09:00, 10:00, 12:21, 12:21, 12:21, 16:45` |
| `Slots.SplitExample` | scripts/calendar.js:89-90 | of that list, the column shows `09:00, 10:00, 12:21` and hides `12:21, 12:21, 16:45` |
| `Slots.NoLaterPacked` | scripts/calendar.js:86 | on `HH:MM` times the character order is the order of the four-digit number `HHMM` |
| `Slots.LexicographicIsChronological` | scripts/calendar.js:86 | on valid `HH:MM` times, one sorts no later than another exactly when it is no later in the day |
| `WeekView.MonthTextIsTwoDigits` | scripts/calendar.js:9 | `meses[m - 1]` is the two-digit text of month `m`, for every month |
| `WeekView.DayAt` | scripts/calendar.js:63-64 | day `i` of the week is the anchor moved by `i` days |
| `WeekView.DayText` | scripts/calendar.js:67 | the day caption is two digits that read as the day of the month |
| `WeekView.MonthText` | scripts/calendar.js:68 | the month caption is two digits that read as the month |
| `WeekView.SortedSlots` | scripts/calendar.js:84-86 | a day's displayed slots are its stored slots in ascending order; a day with no entry has none |
| `WeekView.DayColumn` | scripts/calendar.js:61-90 | column `i` is the day `i` days after the anchor, labelled `diasSemana[i]`, with two-digit day and month of that same date and that date's key |
| `WeekView.Week` | scripts/calendar.js:61 | the week has exactly five columns, and column `i` is `i` days after the anchor |
| `WeekView.WeekConsecutive` | scripts/calendar.js:61-64 | the first column is the anchor, and each later column is the day after the one before |
| `WeekView.WeekKeys` | scripts/calendar.js:69 | each column's key reads back as its date, and no two columns share a key |
| `WeekView.WeekWeekdays` | scripts/calendar.js:61-64 | from a Monday anchor, column `i` falls on weekday `i + 1`, so the columns are Monday to Friday |
| `WeekView.ColumnSlots` | scripts/calendar.js:84-124 | a column shows at most three slots. With no entry it shows none. With an entry, the inline and hidden slots together are the day's stored slots in ascending order, and `max(0, n - 3)` are hidden |
| `DetailPanel.DayOption` | scripts/calendar.js:167-175 | entry `i`'s value reads back as day `i` of the week; the entry is selected exactly when its value is the requested key, which then names that day; its text is the column label, ` - ` and the `DD/MM` caption of that day |
| `DetailPanel.DayOptions` | scripts/calendar.js:166 | the selector has five entries |
| `DetailPanel.OptionsMatchColumns` | scripts/calendar.js:170-173 | entry `i` has column `i`'s key and shows `label - DD/MM` from column `i`'s texts |
| `DetailPanel.AtMostOneSelected` | scripts/calendar.js:174 | no two entries are selected at once |
| `DetailPanel.SomeSelectedIffVisible` | scripts/calendar.js:174 | some entry is selected exactly when the requested key is one of the week's five keys |
| `DetailPanel.ExactlyOneSelected` | scripts/calendar.js:166-176 | when the requested key is one of the week's keys, exactly one entry is selected, and its value is that key |
| `DetailPanel.WeekdayName` | scripts/calendar.js:191 | Monday to Friday get `Seg` to `Sex`; Saturday and Sunday index past the table and read as `undefined` |
| `DetailPanel.HeaderFor` | scripts/calendar.js:190-195 | the header shows the weekday label, two-digit day and month of the date the key names; text naming no date shows `undefined - NaN/undefined` |
| `DetailPanel.BodyFor` | scripts/calendar.js:198-212 | the placeholder shows exactly when the table has no entry; otherwise all the day's slots are listed in ascending order |
| `DetailPanel.ShowPanel` | scripts/calendar.js:186-212 | the panel shows the weekday label, day and month of the date the key names, or `undefined - NaN/undefined` for a key that names none; its body is the placeholder exactly when the table has no entry, and otherwise the day's slots in ascending order |
| `DetailPanel.BodyBranches` | scripts/calendar.js:198-212 | slots and placeholder never show together. Slots show exactly for a non-empty entry. Neither shows exactly for an entry that is present but empty |
| `DetailPanel.PanelMatchesColumn` | scripts/calendar.js:199 | the panel lists a day's slots as its column shows them: inline slots followed by hidden ones |
| `DetailPanel.HeaderMatchesColumn` | scripts/calendar.js:191-195 | for a day of a Monday's week, the weekday-indexed header equals that column's label, day and month, on the model's local-date keys |
| `DetailPanel.HeaderOfKey` | scripts/calendar.js:190-193 | the header for a day's key is read from that same day |
| `CalendarState.Start` | scripts/calendar.js:22-25 | at start-up the anchor is the Monday of today's week and the panel is closed |
| `CalendarState.Next` | scripts/calendar.js:143-146 | Next moves a Monday anchor seven days forward to another Monday and leaves the panel alone |
| `CalendarState.Previous` | scripts/calendar.js:137-140 | Previous moves a Monday anchor seven days back to another Monday and leaves the panel alone |
| `CalendarState.OpenDay` | scripts/calendar.js:106-108 | the "more" button of column `i` opens the panel on that column's key, with the selector filled from this week |
| `CalendarState.SelectDay` | scripts/calendar.js:181 | choosing selector entry `i` keeps the panel open on that entry's key, within the same listed week |
| `CalendarState.Close` | scripts/calendar.js:218-228 | closing, by the close button or a click on the backdrop, keeps the week, closes the panel and keeps the state consistent |
| `CalendarState.Render` | scripts/calendar.js:52-129 | the page shows five columns, column `i` being the day `i` days after the anchor; the panel shows exactly when it is open, and then its selector is the five entries of the week it was filled with, and its header and body are the panel for the open key |
| `CalendarState.StartShowsToday` | scripts/calendar.js:22-25 | after start-up today's column is on screen exactly when today is Monday to Friday |
| `CalendarState.VisibleFromMonday` | scripts/calendar.js:61-69 | a day in the seven days starting at a Monday has its key among the five columns exactly when it is Monday to Friday |
| `CalendarState.NextPreviousRoundTrip` | scripts/calendar.js:137-146 | Previous after Next, and Next after Previous, restore the whole state |
| `CalendarState.TwoNextTwoPreviousRestoreWeek` | scripts/calendar.js:137-146 | two Next then two Previous show the same page again, column for column |
| `CalendarState.SelectKeepsPanelOpen` | scripts/calendar.js:181 | choosing a day goes from an open panel straight to an open panel, and choosing it again changes nothing |
| `CalendarState.OpenPanelSelectsShownDay` | scripts/calendar.js:166-176 | in an open panel exactly one selector entry is selected: the entry for the day shown |
| `CalendarState.OpenDayShowsColumn` | scripts/calendar.js:186-212 | opening column `i` shows its header and, for a day with an entry, exactly its inline and hidden slots; the placeholder shows exactly when there is no entry |

## Left out

- Building the page (element lookups, `innerHTML`, classes and styles) is
  left out. `Render` returns the values the page displays instead.
- Event listeners are left out; each user action is a transition function.
  Every panel opening adds one more `change` listener to the selector. Each
  listener re-renders the same panel from the chosen value, so the panel ends
  in the same state as with one listener.
- Reading the clock (`new Date()`) is left out: today's date is a parameter
  of `Start`.
- Time zones are left out. The model builds a key from a date's local
  calendar fields and reads a key back as that same date. The program does
  so only where the UTC offset is zero. Every date it formats sits at local
  midnight: `getSegunda` builds it at :40, and `setDate` keeps the time of
  day at :64 and :168.
  - East of UTC, `toISOString()` (:69, :170) prints the previous day's date
    as every key. Each column then looks up the previous day's bookings, and
    the panel header reads that previous day.
  - West of UTC the keys are right, but `new Date(key)` (:190) is UTC
    midnight, the evening before in local time. So every panel header reads
    the previous day: Monday's panel shows `undefined - ` followed by
    Sunday's `DD/MM`.

  In either case the program is one day off on every day, not only near
  midnight. The model has no such shift.
- DetailPanel.HeaderMatchesColumn: holds for the model's local-date keys. The
  program keeps it only where the UTC offset is zero; elsewhere its header
  reads the day before the column (line above).
- The time of day of JavaScript dates is left out. Dates are whole days.
- The range limit of JavaScript dates (about ±275,760 years) is left out.
  Years are unbounded integers.
- `localeCompare` is replaced by character-code order. On `HH:MM` times that
  order is time order (`Slots.LexicographicIsChronological`).
- The booking table's contents are left out; the table is any map. Its
  2025-09-04 entry appears as `Slots.SortExample`.
- DateKeys.ParseKey: reads the key format and not the other formats that
  `new Date(text)` accepts. It also reads some spellings that `new Date`
  rejects as invalid dates: a year written `-000000`, and a signed year of
  seven or more digits (`+0002025-09-01`). Only keys that `Key` builds reach
  the panel, from the column buttons and the selector. On those keys the two
  agree (`DateKeys.Key`), so the difference is never seen.
- The extra arguments that the no-entry column button passes to `abrirModal`
  are left out. `abrirModal` ignores them.
- Every column gets a "MAIS" button (calendar.js:106-108 and :118-120),
  whether or not it has hidden slots. The model has no buttons to render;
  `CalendarState.OpenDay` is the button's action.

## Findings

| source | as written | input that shows it | evidently intended | confidence | as-written member | corrected member |
|---|---|---|---|---|---|---|
| scripts/calendar.js:40 | `getSegunda` rebuilds the Monday with `new Date(year, month, day)`, and that constructor reads years 0..99 as 1900..1999 | 0050-06-15: the week anchor lands in June 1950 instead of June 50 | the Monday on or before the given date, in the same calendar, for every year | not executed | `WeekAnchor.MondayOfAsWrittenExample` | `WeekAnchor.MondayOf` |

`WeekAnchor.MondayOfAsWritten` models the code as written. By
`WeekAnchor.MondayOfAsWrittenDiffers`, it agrees with the corrected
`WeekAnchor.MondayOf` exactly outside years 0..99. The rest of the model uses
`MondayOf`. The program calls `getSegunda` only with the current date, so it
meets this case only when the clock reads a year before 100.

=== FILE: datekey.dfy ===
/**
 The schedule's lookup key for a day: `YYYY-MM-DD`, the `full-date` form of
 section 5.6 of RFC 3339, as JavaScript's `toISOString()` prints the date
 part. Years outside 0..9999 take the expanded form `toISOString()` uses: a
 sign followed by at least six digits.

 The key is built from the same local calendar date as the day and month
 labels (no conversion to UTC).
 */
module DateKeys {
  import opened Wrappers
  import opened Decimal
  import opened Gregorian

  /** The year field of the key. */
  function YearText(y: int): (t: string)
    ensures 0 <= y <= 9999 ==> |t| == 4 && AllDigits(t)
    ensures !(0 <= y <= 9999) ==> |t| >= 7 && t[0] in {'+', '-'} && AllDigits(t[1..])
  {
    if 0 <= y <= 9999 then
      ZeroPaddedWidth(y, 4);
      ZeroPadded(y, 4)
    else
      (if y < 0 then "-" else "+") + ZeroPadded(if y < 0 then -y else y, 6)
  }

  /** The two-digit text of a day or month number. */
  function TwoDigits(n: nat): (t: string)
    requires n < 100
    ensures |t| == 2 && AllDigits(t)
    ensures ToNat(t) == n
  {
    ZeroPaddedWidth(n, 2);
    ZeroPadded(n, 2)
  }

  /** `year-MM-DD`: the last six characters hold the separators, month and day. */
  function JoinFields(yt: string, mt: string, dt: string): (k: string)
    requires |mt| == 2 && |dt| == 2
    ensures |k| == |yt| + 6
    ensures k[..|k| - 6] == yt && k[|k| - 6] == '-'
    ensures k[|k| - 5..|k| - 3] == mt && k[|k| - 3] == '-'
    ensures k[|k| - 2..] == dt
  {
    var k := yt + "-" + mt + "-" + dt;
    assert k[..|k| - 6] == yt;
    assert k[|k| - 5..|k| - 3] == mt;
    assert k[|k| - 2..] == dt;
    k
  }

  /** The lookup key of a date; it reads back as that date. */
  function Key(d: Date): (k: string)
    requires Valid(d)
    ensures ParseKey(k) == Some(d)
  {
    FieldsParse(d);
    JoinFields(YearText(d.year), TwoDigits(d.month), TwoDigits(d.day))
  }

  lemma FieldsParse(d: Date)
    requires Valid(d)
    ensures ParseKey(JoinFields(YearText(d.year), TwoDigits(d.month), TwoDigits(d.day))) == Some(d)
  {
    YearRoundTrip(d.year);
  }

  function ParseYear(t: string): Option<int> {
    if |t| == 4 && AllDigits(t) then Some(ToNat(t))
    else if |t| >= 7 && t[0] in {'+', '-'} && AllDigits(t[1..]) then
      var v: int := ToNat(t[1..]);
      Some(if t[0] == '-' then -v else v)
    else None
  }

  /** Reads a key back into a date; anything that is not the key of a valid date gives `None`. */
  function ParseKey(k: string): (r: Option<Date>)
    ensures r.Some? ==> Valid(r.value)
  {
    var n := |k|;
    if n < 10 || k[n - 3] != '-' || k[n - 6] != '-' then None
    else
      var yt, mt, dt := k[..n - 6], k[n - 5..n - 3], k[n - 2..];
      if !AllDigits(mt) || !AllDigits(dt) then None
      else match ParseYear(yt)
        case None => None
        case Some(y) =>
          var d := Date(y, ToNat(mt), ToNat(dt));
          if Valid(d) then Some(d) else None
  }

  lemma YearRoundTrip(y: int)
    ensures ParseYear(YearText(y)) == Some(y)
  {
    var t := YearText(y);
    if !(0 <= y <= 9999) {
      assert t[1..] == ZeroPadded(if y < 0 then -y else y, 6);
    }
  }

  /** Distinct dates have distinct keys, so a key names one day of the schedule. */
  lemma KeyInjective(a: Date, b: Date)
    requires Valid(a) && Valid(b)
    ensures Key(a) == Key(b) <==> a == b
  {
    assert ParseKey(Key(a)) == Some(a) && ParseKey(Key(b)) == Some(b);
  }

  /** The `full-date` production of section 5.6 of RFC 3339, with its month and day-of-month limits. */
  predicate IsFullDate(k: string) {
    && |k| == 10
    && AllDigits(k[..4]) && k[4] == '-' && AllDigits(k[5..7]) && k[7] == '-' && AllDigits(k[8..])
    && 1 <= ToNat(k[5..7]) <= 12
    && 1 <= ToNat(k[8..]) <= DaysInMonth(ToNat(k[..4]), ToNat(k[5..7]))
  }

  /** For four-digit years the key is exactly an RFC 3339 `full-date`. */
  lemma KeyIsFullDate(d: Date)
    requires Valid(d) && 0 <= d.year <= 9999
    ensures IsFullDate(Key(d))
  {
    var k := Key(d);
    assert |k| == 10;
    var y, m, dd := ToNat(k[..4]), ToNat(k[5..7]), ToNat(k[8..]);
    assert y == d.year && m == d.month && dd == d.day;
  }

  lemma TwoDigitsExamples()
    ensures TwoDigits(4) == "04" && TwoDigits(9) == "09" && TwoDigits(14) == "14"
  {
    assert Repeat('0', 1) == "0";
    assert TwoDigits(4) == "0" + FromNat(4);
    assert TwoDigits(9) == "0" + FromNat(9);
    assert TwoDigits(14) == FromNat(14);
  }
}

=== FILE: decimal.dfy ===
/**
 Decimal text of natural numbers: JavaScript's `toString()` on a
 non-negative integer, `padStart` with a fill character, and the digit
 parser that inverts them.
 */
module Decimal {

  predicate IsDigit(c: char) {
    '0' <= c <= '9'
  }

  predicate AllDigits(s: string) {
    forall i :: 0 <= i < |s| ==> IsDigit(s[i])
  }

  function DigitChar(n: nat): (c: char)
    requires n < 10
    ensures IsDigit(c)
  {
    ('0' as int + n) as char
  }

  function DigitValue(c: char): (n: nat)
    requires IsDigit(c)
    ensures n < 10
  {
    c as int - '0' as int
  }

  lemma DigitRoundTrip(n: nat)
    requires n < 10
    ensures DigitValue(DigitChar(n)) == n
  {
  }

  /** The shortest decimal text of `n`, as `n.toString()`. */
  function FromNat(n: nat): (s: string)
    ensures 1 <= |s| && AllDigits(s)
    ensures |s| == 1 <==> n < 10
    decreases n
  {
    if n < 10 then [DigitChar(n)] else FromNat(n / 10) + [DigitChar(n % 10)]
  }

  /** The value of a string of decimal digits (the empty string reads as 0). */
  function ToNat(s: string): nat
    requires AllDigits(s)
    decreases |s|
  {
    if s == [] then 0 else 10 * ToNat(s[..|s| - 1]) + DigitValue(s[|s| - 1])
  }

  function Pow10(k: nat): (p: nat)
    ensures p >= 1
  {
    if k == 0 then 1 else 10 * Pow10(k - 1)
  }

  lemma {:induction false} FromNatRoundTrip(n: nat)
    ensures ToNat(FromNat(n)) == n
    decreases n
  {
    if n < 10 {
      DigitRoundTrip(n);
    } else {
      var s := FromNat(n);
      assert s[..|s| - 1] == FromNat(n / 10);
      FromNatRoundTrip(n / 10);
      DigitRoundTrip(n % 10);
    }
  }

  /** A number below `10^k` has at most `k` digits. */
  lemma {:induction false} FromNatLength(n: nat, k: nat)
    requires 1 <= k && n < Pow10(k)
    ensures |FromNat(n)| <= k
    decreases k
  {
    if n >= 10 {
      assert k >= 2;
      assert n / 10 < Pow10(k - 1);
      FromNatLength(n / 10, k - 1);
    }
  }

  function Repeat(c: char, k: nat): (s: string)
    ensures |s| == k
    ensures forall i :: 0 <= i < k ==> s[i] == c
  {
    if k == 0 then [] else [c] + Repeat(c, k - 1)
  }

  /** `s.padStart(width, fill)`: left-pad with `fill` up to `width`; a longer `s` is returned unchanged. */
  function PadStart(s: string, width: nat, fill: char): (r: string)
    ensures |r| == if |s| < width then width else |s|
    ensures r[|r| - |s|..] == s
    ensures forall i :: 0 <= i < |r| - |s| ==> r[i] == fill
  {
    if |s| < width then Repeat(fill, width - |s|) + s else s
  }

  /** Leading zeros do not change the value of a digit string. */
  lemma {:induction false} LeadingZeros(k: nat, s: string)
    requires AllDigits(s)
    ensures AllDigits(Repeat('0', k) + s)
    ensures ToNat(Repeat('0', k) + s) == ToNat(s)
    decreases k + |s|
  {
    var z := Repeat('0', k) + s;
    if s == [] {
      if k > 0 {
        assert z == Repeat('0', k - 1) + ['0'];
        assert z[..|z| - 1] == Repeat('0', k - 1);
        LeadingZeros(k - 1, []);
        assert Repeat('0', k - 1) + [] == Repeat('0', k - 1);
      }
    } else {
      var init := s[..|s| - 1];
      assert z[..|z| - 1] == Repeat('0', k) + init;
      LeadingZeros(k, init);
    }
  }

  /** `n.toString().padStart(width, "0")`. */
  function ZeroPadded(n: nat, width: nat): (s: string)
    ensures AllDigits(s)
    ensures ToNat(s) == n
    ensures |s| >= width
  {
    var t := FromNat(n);
    FromNatRoundTrip(n);
    if |t| < width then
      LeadingZeros(width - |t|, t);
      PadStart(t, width, '0')
    else
      PadStart(t, width, '0')
  }

  /** Padding is exact for numbers with at most `width` digits (days and months under width 2). */
  lemma ZeroPaddedWidth(n: nat, width: nat)
    requires 1 <= width && n < Pow10(width)
    ensures |ZeroPadded(n, width)| == width
  {
    FromNatLength(n, width);
  }
}

=== FILE: gregorian.dfy ===
/**
 Proleptic Gregorian calendar dates, the local calendar date a JavaScript
 `Date` denotes (year, month 1..12, day of month).

 A date is identified with its day number, the count of days since
 0001-01-01, and every integer is the day number of exactly one valid date.
 Calendar-aware rollover (`setDate`, `new Date(y, m, d)` with an
 out-of-range day) is `AddDays`: convert to a day number, add, convert back.
 */
module Gregorian {

  datatype Date = Date(year: int, month: int, day: int)

  /** Leap years of the proleptic Gregorian calendar (year 0 is a leap year). */
  predicate IsLeapYear(y: int) {
    (y % 4 == 0 && y % 100 != 0) || y % 400 == 0
  }

  function DaysInMonth(y: int, m: int): (n: int)
    requires 1 <= m <= 12
    ensures 28 <= n <= 31
    ensures m == 2 ==> n == (if IsLeapYear(y) then 29 else 28)
    ensures m in {4, 6, 9, 11} ==> n == 30
    ensures m in {1, 3, 5, 7, 8, 10, 12} ==> n == 31
  {
    if m == 2 then (if IsLeapYear(y) then 29 else 28)
    else if m == 4 || m == 6 || m == 9 || m == 11 then 30
    else 31
  }

  function DaysInYear(y: int): int {
    if IsLeapYear(y) then 366 else 365
  }

  predicate Valid(d: Date) {
    1 <= d.month <= 12 && 1 <= d.day <= DaysInMonth(d.year, d.month)
  }

  /** Days from 0001-01-01 to the first of January of year `y` (negative before year 1). */
  function DaysBeforeYear(y: int): int {
    365 * (y - 1) + (y - 1) / 4 - (y - 1) / 100 + (y - 1) / 400
  }

  /** Days from the first of January of year `y` to the first of month `m`. */
  function DaysBeforeMonth(y: int, m: int): int
    requires 1 <= m <= 12
  {
    [0, 31, 59, 90, 120, 151, 181, 212, 243, 273, 304, 334][m - 1]
    + (if m > 2 && IsLeapYear(y) then 1 else 0)
  }

  function DayNumber(d: Date): int
    requires Valid(d)
  {
    DaysBeforeYear(d.year) + DaysBeforeMonth(d.year, d.month) + d.day - 1
  }

  /** Day of the week with JavaScript's `getDay` numbering: 0 is Sunday, 1 Monday, ..., 6 Saturday. */
  function Weekday(d: Date): (w: int)
    requires Valid(d)
    ensures 0 <= w < 7
  {
    // 0001-01-01 was a Monday.
    (DayNumber(d) + 1) % 7
  }

  /** Strict chronological order on dates, read lexicographically off the fields. */
  predicate Before(a: Date, b: Date) {
    a.year < b.year
    || (a.year == b.year && a.month < b.month)
    || (a.year == b.year && a.month == b.month && a.day < b.day)
  }

  // ---------------------------------------------------------------------------
  // Month and year lengths agree with the cumulative tables.

  /** The step `y/k - (y-1)/k` of a floor quotient is 1 exactly at multiples of `k`. */
  lemma FloorStep(y: int, k: int)
    requires k in {4, 100, 400}
    ensures y / k - (y - 1) / k == (if y % k == 0 then 1 else 0)
  {
    var q, r := y / k, y % k;
    assert y == k * q + r && 0 <= r < k;
    if r == 0 {
      assert y - 1 == k * (q - 1) + (k - 1);
    } else {
      assert y - 1 == k * q + (r - 1);
    }
  }

  lemma YearLength(y: int)
    ensures DaysBeforeYear(y + 1) == DaysBeforeYear(y) + DaysInYear(y)
  {
    FloorStep(y, 4);
    FloorStep(y, 100);
    FloorStep(y, 400);
    DivisorChain(y);
    var a := y - 1;
    assert DaysBeforeYear(y + 1) - DaysBeforeYear(y)
      == 365 + (y / 4 - a / 4) - (y / 100 - a / 100) + (y / 400 - a / 400);
  }

  /** Multiples of 400 are multiples of 100, and those are multiples of 4. */
  lemma DivisorChain(y: int)
    ensures y % 400 == 0 ==> y % 100 == 0
    ensures y % 100 == 0 ==> y % 4 == 0
  {
    if y % 400 == 0 {
      var q := y / 400;
      assert y == 100 * (4 * q);
      MultipleMod(4 * q, 100);
    }
    if y % 100 == 0 {
      var q := y / 100;
      assert y == 4 * (25 * q);
      MultipleMod(25 * q, 4);
    }
  }

  lemma MultipleMod(m: int, k: int)
    requires k in {4, 100}
    ensures (k * m) % k == 0
  {
    if k == 4 {
      assert (4 * m) % 4 == 0;
    } else {
      assert (100 * m) % 100 == 0;
    }
  }

  lemma MonthLength(y: int, m: int)
    requires 1 <= m < 12
    ensures DaysBeforeMonth(y, m + 1) == DaysBeforeMonth(y, m) + DaysInMonth(y, m)
  {
  }

  lemma LastMonthLength(y: int)
    ensures DaysBeforeMonth(y, 12) + DaysInMonth(y, 12) == DaysInYear(y)
  {
  }

  lemma {:induction false} DaysBeforeMonthMonotone(y: int, m1: int, m2: int)
    requires 1 <= m1 <= m2 <= 12
    ensures DaysBeforeMonth(y, m1) <= DaysBeforeMonth(y, m2)
    decreases m2 - m1
  {
    if m1 < m2 {
      MonthLength(y, m2 - 1);
      DaysBeforeMonthMonotone(y, m1, m2 - 1);
    }
  }

  lemma {:induction false} DaysBeforeYearMonotone(y1: int, y2: int)
    requires y1 <= y2
    ensures DaysBeforeYear(y1) <= DaysBeforeYear(y2)
    decreases y2 - y1
  {
    if y1 < y2 {
      YearLength(y2 - 1);
      DaysBeforeYearMonotone(y1, y2 - 1);
    }
  }

  /** A valid date's day number lies inside its year. */
  lemma DayNumberInYear(d: Date)
    requires Valid(d)
    ensures DaysBeforeYear(d.year) <= DayNumber(d) < DaysBeforeYear(d.year + 1)
  {
    YearLength(d.year);
    LastMonthLength(d.year);
    DaysBeforeMonthMonotone(d.year, d.month, 12);
    if d.month < 12 {
      MonthLength(d.year, d.month);
      DaysBeforeMonthMonotone(d.year, d.month + 1, 12);
    }
  }

  lemma BeforeIncreasesDayNumber(a: Date, b: Date)
    requires Valid(a) && Valid(b) && Before(a, b)
    ensures DayNumber(a) < DayNumber(b)
  {
    if a.year < b.year {
      DayNumberInYear(a);
      DayNumberInYear(b);
      DaysBeforeYearMonotone(a.year + 1, b.year);
    } else if a.month < b.month {
      MonthLength(a.year, a.month);
      DaysBeforeMonthMonotone(a.year, a.month + 1, b.month);
    }
  }

  /** The day number is an order isomorphism from valid dates into the integers. */
  lemma DayNumberOrder(a: Date, b: Date)
    requires Valid(a) && Valid(b)
    ensures Before(a, b) <==> DayNumber(a) < DayNumber(b)
    ensures DayNumber(a) == DayNumber(b) <==> a == b
  {
    if Before(a, b) {
      BeforeIncreasesDayNumber(a, b);
    } else if Before(b, a) {
      BeforeIncreasesDayNumber(b, a);
    }
  }

  lemma DayNumberInjective(a: Date, b: Date)
    requires Valid(a) && Valid(b) && DayNumber(a) == DayNumber(b)
    ensures a == b
  {
    DayNumberOrder(a, b);
  }

  // ---------------------------------------------------------------------------
  // From a day number back to a date.

  /** `(c * q + a) / c == q + a / c` for the divisors of the leap-year rule. */
  lemma DivShift(q: int, a: int, c: int)
    requires c in {4, 100, 400}
    ensures (c * q + a) / c == q + a / c
  {
    var x := c * q + a;
    assert x == c * (q + a / c) + a % c && 0 <= a % c < c;
  }

  /** The calendar repeats every 400 years, which hold 146097 days. */
  lemma DaysBeforeYearCycle(e: int, k: int)
    ensures DaysBeforeYear(400 * e + 1 + k) == 146097 * e + DaysBeforeYear(1 + k)
  {
    DivShift(100 * e, k, 4);
    DivShift(4 * e, k, 100);
    DivShift(e, k, 400);
    assert 400 * e + k == 4 * (100 * e) + k == 100 * (4 * e) + k == 400 * e + k;
  }

  /** The year `k` (counted from 0) of a 400-year cycle into which day `doe` of the cycle falls. */
  function YearInCycle(doe: int, k: int): (r: int)
    requires 0 <= k < 400 && DaysBeforeYear(1 + k) <= doe < 146097
    ensures k <= r < 400 && DaysBeforeYear(1 + r) <= doe < DaysBeforeYear(2 + r)
    decreases 400 - k
  {
    YearLength(1 + k);
    if doe < DaysBeforeYear(2 + k) then k else YearInCycle(doe, k + 1)
  }

  lemma YearInCycleBounds(z: int, e: int, k: int, doe: int, y: int)
    requires z == 146097 * e + doe && y == 400 * e + 1 + k
    requires DaysBeforeYear(1 + k) <= doe < DaysBeforeYear(2 + k)
    ensures DaysBeforeYear(y) <= z < DaysBeforeYear(y + 1)
  {
    DaysBeforeYearCycle(e, k);
    DaysBeforeYearCycle(e, k + 1);
  }

  /** The year holding day number `z`. */
  function YearOf(z: int): (y: int)
    ensures DaysBeforeYear(y) <= z < DaysBeforeYear(y + 1)
  {
    var e, doe := z / 146097, z % 146097;
    assert z == 146097 * e + doe;
    assert DaysBeforeYear(1) == 0;
    var k := YearInCycle(doe, 0);
    var y := 400 * e + 1 + k;
    YearInCycleBounds(z, e, k, doe, y);
    y
  }

  /** The month (searched downwards from `m`) holding day `offset` of year `y`. */
  function MonthOf(y: int, offset: int, m: int): (r: int)
    requires 1 <= m <= 12 && 0 <= offset < DaysBeforeMonth(y, m) + DaysInMonth(y, m)
    ensures 1 <= r <= m
    ensures DaysBeforeMonth(y, r) <= offset < DaysBeforeMonth(y, r) + DaysInMonth(y, r)
    decreases m
  {
    if DaysBeforeMonth(y, m) <= offset then m
    else
      MonthLength(y, m - 1);
      MonthOf(y, offset, m - 1)
  }

  /** The date with day number `z`: every integer is the day number of exactly one valid date. */
  function FromDayNumber(z: int): (r: Date)
    ensures Valid(r) && DayNumber(r) == z
  {
    var y := YearOf(z);
    var offset := z - DaysBeforeYear(y);
    YearLength(y);
    LastMonthLength(y);
    var m := MonthOf(y, offset, 12);
    Date(y, m, offset - DaysBeforeMonth(y, m) + 1)
  }

  lemma DayNumberRoundTrip(d: Date)
    requires Valid(d)
    ensures FromDayNumber(DayNumber(d)) == d
  {
    DayNumberInjective(FromDayNumber(DayNumber(d)), d);
  }

  // ---------------------------------------------------------------------------
  // Calendar-aware rollover.

  /**
   `d` shifted by `n` calendar days (backwards when `n` is negative), as
   `setDate(getDate() + n)` and `new Date(y, m, day + n)` roll over month and
   year ends.
   */
  function AddDays(d: Date, n: int): (r: Date)
    requires Valid(d)
    ensures Valid(r)
    ensures DayNumber(r) == DayNumber(d) + n
  {
    // `FromDayNumber` shows such a date exists; injectivity of the day number makes it unique.
    var existing := FromDayNumber(DayNumber(d) + n);
    forall a: Date, b: Date | Valid(a) && Valid(b) && DayNumber(a) == DayNumber(b)
      ensures a == b
    {
      DayNumberInjective(a, b);
    }
    var r :| Valid(r) && DayNumber(r) == DayNumber(d) + n;
    r
  }

  /** Rollover computes the same date as converting through the day number. */
  lemma AddDaysByDayNumber(d: Date, n: int)
    requires Valid(d)
    ensures AddDays(d, n) == FromDayNumber(DayNumber(d) + n)
  {
    DayNumberInjective(AddDays(d, n), FromDayNumber(DayNumber(d) + n));
  }

  /** `AddDays` is the only date `n` days away: it is fixed by its day number. */
  lemma AddDaysUnique(d: Date, n: int, e: Date)
    requires Valid(d) && Valid(e)
    ensures e == AddDays(d, n) <==> DayNumber(e) == DayNumber(d) + n
  {
    if DayNumber(e) == DayNumber(d) + n {
      DayNumberInjective(e, AddDays(d, n));
    }
  }

  lemma AddDaysCompose(d: Date, m: int, n: int)
    requires Valid(d)
    ensures AddDays(AddDays(d, m), n) == AddDays(d, m + n)
  {
    DayNumberInjective(AddDays(AddDays(d, m), n), AddDays(d, m + n));
  }

  lemma AddDaysRoundTrip(d: Date, n: int)
    requires Valid(d)
    ensures AddDays(AddDays(d, n), -n) == d
  {
    DayNumberInjective(AddDays(AddDays(d, n), -n), d);
  }

  lemma WeekdayAddDays(d: Date, n: int)
    requires Valid(d)
    ensures Weekday(AddDays(d, n)) == (Weekday(d) + n) % 7
  {
    ModAdd(DayNumber(d) + 1, n);
  }

  lemma ModAdd(x: int, n: int)
    ensures (x + n) % 7 == (x % 7 + n) % 7
  {
    var q, r := x / 7, x % 7;
    assert x + n == 7 * q + (r + n);
    ModShift(r + n, q);
  }

  lemma ModShift(a: int, q: int)
    ensures (7 * q + a) % 7 == a % 7
  {
  }

  /** Two reference points: 1970-01-01 was a Thursday and 2025-09-01 a Monday. */
  lemma WeekdayExamples()
    ensures Weekday(Date(1970, 1, 1)) == 4
    ensures Weekday(Date(2025, 9, 1)) == 1
    ensures Weekday(Date(2025, 9, 7)) == 0
  {
  }
}

=== FILE: panel.dfy ===
/**
 The day detail panel (`abrirModal` and `atualizarHorariosModal` in
 scripts/calendar.js): the day selector listing the five days of a week
 with the requested day selected, the header read back from the day's key,
 and the body listing every booked slot or the "no bookings" placeholder.
 */
module DetailPanel {
  import opened Wrappers
  import opened Decimal
  import opened Gregorian
  import opened DateKeys
  import opened WeekAnchor
  import opened Slots
  import opened WeekView

  /** One entry of the day selector: its key, its `label - DD/MM` text and whether it is selected. */
  datatype SelectOption = SelectOption(value: string, text: string, selected: bool)

  /**
   The selector entry for offset `i` of the week starting at `anchor`: its
   value reads back as that day, it is selected exactly when it is the
   requested key, and its text is the column label, ` - `, and the day's
   `DD/MM` caption.
   */
  function DayOption(anchor: Date, i: int, requested: string): (o: SelectOption)
    requires Valid(anchor) && 0 <= i < DaysShown
    ensures ParseKey(o.value) == Some(DayAt(anchor, i))
    ensures o.selected <==> o.value == requested
    ensures o.selected ==> ParseKey(requested) == Some(DayAt(anchor, i))
    ensures o.text == DayLabels[i] + " - " + DayText(DayAt(anchor, i)) + "/" + MonthText(DayAt(anchor, i))
  {
    var d := DayAt(anchor, i);
    var key := Key(d);
    SelectOption(key, DayLabels[i] + " - " + DayText(d) + "/" + MonthText(d), key == requested)
  }

  /** The five selector entries, Monday to Friday. */
  function DayOptions(anchor: Date, requested: string): (opts: seq<SelectOption>)
    requires Valid(anchor)
    ensures |opts| == DaysShown
  {
    seq(DaysShown, i requires 0 <= i < DaysShown => DayOption(anchor, i, requested))
  }

  /** The selector lists the week's keys in column order and shows the column texts. */
  lemma OptionsMatchColumns(anchor: Date, requested: string, table: Schedule, i: int)
    requires Valid(anchor) && 0 <= i < DaysShown
    ensures var o, c := DayOptions(anchor, requested)[i], Week(anchor, table)[i];
      o.value == c.key && o.text == c.name + " - " + c.day + "/" + c.month
  {
    assert DayOptions(anchor, requested)[i] == DayOption(anchor, i, requested);
    WeekColumn(anchor, table, i);
  }

  /** At most one entry is selected: the week's keys are pairwise distinct. */
  lemma AtMostOneSelected(anchor: Date, requested: string, i: int, j: int)
    requires Valid(anchor) && 0 <= i < DaysShown && 0 <= j < DaysShown
    requires DayOptions(anchor, requested)[i].selected && DayOptions(anchor, requested)[j].selected
    ensures i == j
  {
    var opts := DayOptions(anchor, requested);
    assert opts[i] == DayOption(anchor, i, requested) && opts[j] == DayOption(anchor, j, requested);
    SelectedPinsDay(anchor, requested, i, j);
  }

  /** Two selected entries read back as the same day, so they are the same entry. */
  lemma SelectedPinsDay(anchor: Date, requested: string, i: int, j: int)
    requires Valid(anchor) && 0 <= i < DaysShown && 0 <= j < DaysShown
    requires DayOption(anchor, i, requested).selected && DayOption(anchor, j, requested).selected
    ensures i == j
  {
    DayKeysDistinct(anchor, i, j);
  }

  /** An entry is selected exactly when the requested key is one of the week's five keys. */
  lemma SomeSelectedIffVisible(anchor: Date, requested: string)
    requires Valid(anchor)
    ensures (exists i :: 0 <= i < DaysShown && DayOptions(anchor, requested)[i].selected)
        <==> (exists i :: 0 <= i < DaysShown && Key(DayAt(anchor, i)) == requested)
  {
    var opts := DayOptions(anchor, requested);
    forall i | 0 <= i < DaysShown
      ensures opts[i].selected <==> Key(DayAt(anchor, i)) == requested
    {
      assert opts[i] == DayOption(anchor, i, requested);
    }
  }

  /** When the requested key is one of the week's keys, exactly one entry is selected: the entry with that key. */
  lemma ExactlyOneSelected(anchor: Date, requested: string)
    requires Valid(anchor)
    requires exists k :: 0 <= k < DaysShown && Key(DayAt(anchor, k)) == requested
    ensures var opts := DayOptions(anchor, requested);
      && (exists i :: 0 <= i < DaysShown && opts[i].selected && opts[i].value == requested)
      && (forall i, j :: 0 <= i < DaysShown && 0 <= j < DaysShown && opts[i].selected && opts[j].selected ==> i == j)
  {
    var opts := DayOptions(anchor, requested);
    var k :| 0 <= k < DaysShown && Key(DayAt(anchor, k)) == requested;
    assert opts[k] == DayOption(anchor, k, requested);
    forall i, j | 0 <= i < DaysShown && 0 <= j < DaysShown && opts[i].selected && opts[j].selected
      ensures i == j
    {
      AtMostOneSelected(anchor, requested, i, j);
    }
  }

  /** The weekday label at index `(getDay() + 6) % 7`; Saturday and Sunday index past the table. */
  function WeekdayName(weekday: int): (r: string)
    requires 0 <= weekday < 7
    ensures 1 <= weekday <= 5 ==> r == DayLabels[weekday - 1]
    ensures weekday in {0, 6} ==> r == "undefined"
  {
    var idx := (weekday + 6) % 7;
    if idx < DaysShown then DayLabels[idx] else "undefined"
  }

  /** The panel header: label, day and month of the date the key names. */
  datatype Header = Header(name: string, day: string, month: string)

  /**
   The header for a key. A key that names no date is an invalid date: its
   weekday and month index nothing and its day prints as `NaN`.
   */
  function HeaderFor(key: string): (h: Header)
    ensures ParseKey(key).None? ==> h == Header("undefined", "NaN", "undefined")
    ensures ParseKey(key).Some? ==> var d := ParseKey(key).value;
      && h.name == WeekdayName(Weekday(d))
      && |h.day| == 2 && AllDigits(h.day) && ToNat(h.day) == d.day
      && |h.month| == 2 && AllDigits(h.month) && ToNat(h.month) == d.month
  {
    match ParseKey(key)
    case None => Header("undefined", "NaN", "undefined")
    case Some(d) => Header(WeekdayName(Weekday(d)), DayText(d), MonthText(d))
  }

  /** The panel body: every sorted slot, or the placeholder when the table has no entry. */
  datatype Body = Listing(slots: seq<string>) | NoBookings

  function BodyFor(table: Schedule, key: string): (b: Body)
    ensures b.NoBookings? <==> key !in table
    ensures b.Listing? ==> Sorted(b.slots) && multiset(b.slots) == multiset(table[key])
  {
    if key in table then Listing(Sort(table[key])) else NoBookings
  }

  /** What the panel shows: its header and body. */
  datatype PanelView = PanelView(header: Header, body: Body)

  /**
   The panel for `key`: the header of the date the key names (or of an
   invalid date), and the day's sorted slots or the placeholder.
   */
  function ShowPanel(table: Schedule, key: string): (v: PanelView)
    ensures ParseKey(key).Some? ==> var d := ParseKey(key).value;
      v.header == Header(WeekdayName(Weekday(d)), DayText(d), MonthText(d))
    ensures ParseKey(key).None? ==> v.header == Header("undefined", "NaN", "undefined")
    ensures v.body.NoBookings? <==> key !in table
    ensures v.body.Listing? ==> Sorted(v.body.slots) && multiset(v.body.slots) == multiset(table[key])
  {
    PanelView(HeaderFor(key), BodyFor(table, key))
  }

  predicate ShowsSlots(b: Body) {
    b.Listing? && |b.slots| > 0
  }

  predicate ShowsPlaceholder(b: Body) {
    b.NoBookings?
  }

  /**
   Slots and placeholder never show together. Both are missing exactly when
   the table has an entry for the key holding no slots.
   */
  lemma BodyBranches(table: Schedule, key: string)
    ensures var b := BodyFor(table, key);
      && !(ShowsSlots(b) && ShowsPlaceholder(b))
      && (ShowsPlaceholder(b) <==> key !in table)
      && (ShowsSlots(b) <==> key in table && |table[key]| > 0)
      && (!ShowsSlots(b) && !ShowsPlaceholder(b) <==> key in table && table[key] == [])
  {
    var b := BodyFor(table, key);
    if key in table {
      assert |b.slots| == |multiset(b.slots)| == |multiset(table[key])| == |table[key]|;
    }
  }

  /** The panel lists every slot of the day, in the same order as the column and its hidden rest. */
  lemma PanelMatchesColumn(anchor: Date, table: Schedule, i: int)
    requires Valid(anchor) && 0 <= i < DaysShown
    ensures var c := Week(anchor, table)[i];
      var b := BodyFor(table, c.key);
      b.Listing? ==> b.slots == c.slots.shown + c.slots.hidden
  {
  }

  /** Opened on a day of a Monday's week, the header repeats that day's column: label, day and month. */
  lemma HeaderMatchesColumn(anchor: Date, table: Schedule, i: int)
    requires Valid(anchor) && IsMonday(anchor) && 0 <= i < DaysShown
    ensures var c := Week(anchor, table)[i];
      HeaderFor(c.key) == Header(c.name, c.day, c.month)
  {
    var d := DayAt(anchor, i);
    WeekColumn(anchor, table, i);
    HeaderOfKey(d);
    WeekWeekdays(anchor, table, i);
  }

  /** The header for a date's key is read from that date. */
  lemma HeaderOfKey(d: Date)
    requires Valid(d)
    ensures HeaderFor(Key(d)) == Header(WeekdayName(Weekday(d)), DayText(d), MonthText(d))
  {
    assert ParseKey(Key(d)) == Some(d);
  }
}

=== FILE: slots.dfy ===
/**
 Booked time slots (`HH:MM` strings) of one day: the ascending sort that
 copies the stored list (`slice().sort(...)`), and the split of the sorted
 list into the first three slots shown in the day's column and the rest.

 The order is plain lexicographic order on characters; on `HH:MM` strings it
 is chronological order.
 */
module Slots {
  import opened Decimal

  /** `a` sorts no later than `b` in character-code order; a prefix sorts first. */
  predicate NoLater(a: string, b: string): (r: bool)
    ensures a <= b ==> r
    decreases |a|
  {
    |a| == 0 || (|b| > 0 && (a[0] < b[0] || (a[0] == b[0] && NoLater(a[1..], b[1..]))))
  }

  lemma {:induction false} NoLaterReflexive(a: string)
    ensures NoLater(a, a)
    decreases |a|
  {
    if |a| > 0 {
      NoLaterReflexive(a[1..]);
    }
  }

  lemma {:induction false} NoLaterTotal(a: string, b: string)
    ensures NoLater(a, b) || NoLater(b, a)
    decreases |a|
  {
    if |a| > 0 && |b| > 0 && a[0] == b[0] {
      NoLaterTotal(a[1..], b[1..]);
    }
  }

  lemma {:induction false} NoLaterAntisymmetric(a: string, b: string)
    requires NoLater(a, b) && NoLater(b, a)
    ensures a == b
    decreases |a|
  {
    if |a| > 0 {
      NoLaterAntisymmetric(a[1..], b[1..]);
      assert a == [a[0]] + a[1..] && b == [b[0]] + b[1..];
    }
  }

  lemma {:induction false} NoLaterTransitive(a: string, b: string, c: string)
    requires NoLater(a, b) && NoLater(b, c)
    ensures NoLater(a, c)
    decreases |a|
  {
    if |a| > 0 && a[0] == b[0] && b[0] == c[0] {
      NoLaterTransitive(a[1..], b[1..], c[1..]);
    }
  }

  predicate Sorted(s: seq<string>) {
    forall i, j :: 0 <= i < j < |s| ==> NoLater(s[i], s[j])
  }

  /** `x` placed in front of the first slot it sorts no later than. */
  function Insert(x: string, s: seq<string>): (r: seq<string>)
    requires Sorted(s)
    ensures Sorted(r)
    ensures multiset(r) == multiset(s) + multiset{x}
  {
    if s == [] then [x]
    else if NoLater(x, s[0]) then
      forall j | 0 <= j < |s| ensures NoLater(x, s[j]) {
        if j > 0 { NoLaterTransitive(x, s[0], s[j]); }
      }
      [x] + s
    else
      NoLaterTotal(x, s[0]);
      var rest := Insert(x, s[1..]);
      assert s == [s[0]] + s[1..];
      forall y | y in rest ensures NoLater(s[0], y) {
        assert y in multiset(rest);
        if y != x {
          assert y in multiset(s[1..]);
          var j :| 0 <= j < |s[1..]| && s[1..][j] == y;
          assert s[j + 1] == y;
        }
      }
      [s[0]] + rest
  }

  /** The ascending copy of a day's slot list. */
  function Sort(s: seq<string>): (r: seq<string>)
    ensures Sorted(r)
    ensures multiset(r) == multiset(s)
  {
    if s == [] then []
    else
      assert s == [s[0]] + s[1..];
      Insert(s[0], Sort(s[1..]))
  }

  /** The first slot of a sorted list sorts no later than any slot in it. */
  lemma SortedHeadFirst(a: seq<string>, x: string)
    requires Sorted(a) && x in a
    ensures NoLater(a[0], x)
  {
    var i :| 0 <= i < |a| && a[i] == x;
    if i == 0 { NoLaterReflexive(x); }
  }

  lemma SortedTail(a: seq<string>)
    requires Sorted(a) && a != []
    ensures Sorted(a[1..]) && multiset(a[1..]) == multiset(a) - multiset{a[0]}
  {
    assert a == [a[0]] + a[1..];
  }

  lemma PermutationHeads(a: seq<string>, b: seq<string>)
    requires multiset(a) == multiset(b) && a != []
    ensures b != [] && a[0] in b && b[0] in a
  {
    assert |b| == |multiset(b)| == |a|;
    assert a[0] in multiset(b) && b[0] in multiset(a);
  }

  /** Two sorted lists with the same slots start with the same slot. */
  lemma SortedHeadsEqual(a: seq<string>, b: seq<string>)
    requires Sorted(a) && Sorted(b) && multiset(a) == multiset(b) && a != []
    ensures b != [] && a[0] == b[0]
  {
    PermutationHeads(a, b);
    SortedHeadFirst(b, a[0]);
    SortedHeadFirst(a, b[0]);
    NoLaterAntisymmetric(a[0], b[0]);
  }

  /** A sorted permutation is unique: two sorted lists with the same slots are equal. */
  lemma {:induction false} SortedPermutationUnique(a: seq<string>, b: seq<string>)
    requires Sorted(a) && Sorted(b) && multiset(a) == multiset(b)
    ensures a == b
    decreases |a|
  {
    if a != [] {
      SortedHeadsEqual(a, b);
      SortedTail(a);
      SortedTail(b);
      SortedPermutationUnique(a[1..], b[1..]);
      assert a == [a[0]] + a[1..] && b == [b[0]] + b[1..];
    }
  }

  /** `Sort` is the sorted permutation: any sorted rearrangement of `s` is `Sort(s)`. */
  lemma SortCharacterization(s: seq<string>, r: seq<string>)
    ensures r == Sort(s) <==> Sorted(r) && multiset(r) == multiset(s)
  {
    if Sorted(r) && multiset(r) == multiset(s) {
      SortedPermutationUnique(r, Sort(s));
    }
  }

  /** Sorting a sorted list changes nothing, so sorting twice is sorting once. */
  lemma SortIdempotent(s: seq<string>)
    ensures Sorted(s) ==> Sort(s) == s
    ensures Sort(Sort(s)) == Sort(s)
  {
    SortCharacterization(s, s);
    SortCharacterization(Sort(s), Sort(s));
  }

  /** The number of slots shown inline in a day's column. */
  const InlineCount: nat := 3

  /** The first slots (shown in the column) and the rest (`slice(0, 3)` and `slice(3)`). */
  datatype Preview = Preview(shown: seq<string>, hidden: seq<string>)

  function Split(sorted: seq<string>): (p: Preview)
    ensures |p.shown| == if |sorted| < InlineCount then |sorted| else InlineCount
    ensures |p.hidden| == if |sorted| < InlineCount then 0 else |sorted| - InlineCount
    ensures p.shown + p.hidden == sorted
    ensures Sorted(sorted) ==> forall x, y :: x in p.shown && y in p.hidden ==> NoLater(x, y)
  {
    var n := if |sorted| < InlineCount then |sorted| else InlineCount;
    assert sorted[..n] + sorted[n..] == sorted;
    Preview(sorted[..n], sorted[n..])
  }

  /** The stored list of 2025-09-04 in the booking table, sorted: duplicates kept, 16:45 last. */
  lemma SortExample()
    ensures Sort(["09:00", "10:00", "16:45", "12:21", "12:21", "12:21"])
         == ["09:00", "10:00", "12:21", "12:21", "12:21", "16:45"]
  {
    var s := ["09:00", "10:00", "16:45", "12:21", "12:21", "12:21"];
    var r := ["09:00", "10:00", "12:21", "12:21", "12:21", "16:45"];
    ExampleSorted();
    assert multiset(s) == multiset(r);
    SortCharacterization(s, r);
  }

  /** Of that sorted list the column shows 09:00, 10:00 and 12:21 and hides three. */
  lemma SplitExample()
    ensures Split(["09:00", "10:00", "12:21", "12:21", "12:21", "16:45"])
         == Preview(["09:00", "10:00", "12:21"], ["12:21", "12:21", "16:45"])
  {
  }

  lemma ExampleSorted()
    ensures Sorted(["09:00", "10:00", "12:21", "12:21", "12:21", "16:45"])
  {
    var r := ["09:00", "10:00", "12:21", "12:21", "12:21", "16:45"];
    var a, b, c, d := r[0], r[1], r[2], r[5];
    assert NoLater(a, b) && NoLater(b, c) && NoLater(c, d);
    NoLaterReflexive(c);
    NoLaterTransitive(a, b, c);
    NoLaterTransitive(b, c, d);
    NoLaterTransitive(a, c, d);
  }

  // ---------------------------------------------------------------------------
  // On `HH:MM` times, character order is time order.

  /** A 24-hour `HH:MM` time. */
  predicate IsClockTime(t: string) {
    && |t| == 5 && t[2] == ':'
    && IsDigit(t[0]) && IsDigit(t[1]) && IsDigit(t[3]) && IsDigit(t[4])
    && 10 * DigitValue(t[0]) + DigitValue(t[1]) < 24
    && 10 * DigitValue(t[3]) + DigitValue(t[4]) < 60
  }

  /** Minutes since midnight. */
  function MinuteOfDay(t: string): (m: nat)
    requires IsClockTime(t)
    ensures m < 24 * 60
  {
    60 * (10 * DigitValue(t[0]) + DigitValue(t[1])) + 10 * DigitValue(t[3]) + DigitValue(t[4])
  }

  /** The four digits of a time read as one number `HHMM`. */
  function Packed(t: string): nat
    requires IsClockTime(t)
  {
    1000 * DigitValue(t[0]) + 100 * DigitValue(t[1]) + 10 * DigitValue(t[3]) + DigitValue(t[4])
  }

  lemma DigitOrder(c: char, d: char)
    requires IsDigit(c) && IsDigit(d)
    ensures c < d <==> DigitValue(c) < DigitValue(d)
    ensures c == d <==> DigitValue(c) == DigitValue(d)
  {
  }

  lemma NoLaterStep(a: string, b: string)
    requires |a| > 0 && |b| > 0
    ensures NoLater(a, b) <==> a[0] < b[0] || (a[0] == b[0] && NoLater(a[1..], b[1..]))
  {
  }

  /** Comparing two times character by character compares their `HHMM` numbers. */
  lemma NoLaterPacked(a: string, b: string)
    requires IsClockTime(a) && IsClockTime(b)
    ensures NoLater(a, b) <==> Packed(a) <= Packed(b)
  {
    DigitOrder(a[0], b[0]);
    DigitOrder(a[1], b[1]);
    DigitOrder(a[3], b[3]);
    DigitOrder(a[4], b[4]);
    var a1, b1 := a[1..], b[1..];
    var a2, b2 := a[2..], b[2..];
    var a3, b3 := a[3..], b[3..];
    var a4, b4 := a[4..], b[4..];
    assert a1[1..] == a2 && a2[1..] == a3 && a3[1..] == a4 && a4[1..] == [];
    assert b1[1..] == b2 && b2[1..] == b3 && b3[1..] == b4 && b4[1..] == [];
    NoLaterStep(a, b);
    NoLaterStep(a1, b1);
    NoLaterStep(a2, b2);
    NoLaterStep(a3, b3);
    NoLaterStep(a4, b4);
    assert NoLater(a4[1..], b4[1..]);
    assert a1[0] == a[1] && a2[0] == a[2] == ':' && a3[0] == a[3] && a4[0] == a[4];
    assert b1[0] == b[1] && b2[0] == b[2] == ':' && b3[0] == b[3] && b4[0] == b[4];
    PackedDigits(DigitValue(a[0]), DigitValue(a[1]), DigitValue(a[3]), DigitValue(a[4]),
                 DigitValue(b[0]), DigitValue(b[1]), DigitValue(b[3]), DigitValue(b[4]));
  }

  /** Digit-by-digit order of four digits is the order of the four-digit numbers. */
  lemma PackedDigits(a0: int, a1: int, a3: int, a4: int, b0: int, b1: int, b3: int, b4: int)
    requires 0 <= a0 < 10 && 0 <= a1 < 10 && 0 <= a3 < 10 && 0 <= a4 < 10
    requires 0 <= b0 < 10 && 0 <= b1 < 10 && 0 <= b3 < 10 && 0 <= b4 < 10
    ensures (a0 < b0 || (a0 == b0 && (a1 < b1 || (a1 == b1 && (a3 < b3 || (a3 == b3 && a4 <= b4))))))
        <==> 1000 * a0 + 100 * a1 + 10 * a3 + a4 <= 1000 * b0 + 100 * b1 + 10 * b3 + b4
  {
  }

  /** With minutes below 60, `100 * h + m` and `60 * h + m` order times alike. */
  lemma HoursThenMinutes(ha: int, ma: int, hb: int, mb: int)
    requires 0 <= ma < 60 && 0 <= mb < 60
    ensures 100 * ha + ma <= 100 * hb + mb <==> 60 * ha + ma <= 60 * hb + mb
  {
    if ha < hb {
      assert 100 * ha + ma < 100 * hb && 60 * ha + ma < 60 * hb;
    } else if ha > hb {
      assert 100 * hb + mb < 100 * ha && 60 * hb + mb < 60 * ha;
    }
  }

  /** The slot order is chronological: one `HH:MM` time sorts no later than another exactly when it is no later in the day. */
  lemma LexicographicIsChronological(a: string, b: string)
    requires IsClockTime(a) && IsClockTime(b)
    ensures NoLater(a, b) <==> MinuteOfDay(a) <= MinuteOfDay(b)
  {
    NoLaterPacked(a, b);
    HoursThenMinutes(10 * DigitValue(a[0]) + DigitValue(a[1]), 10 * DigitValue(a[3]) + DigitValue(a[4]),
                     10 * DigitValue(b[0]) + DigitValue(b[1]), 10 * DigitValue(b[3]) + DigitValue(b[4]));
  }
}

=== FILE: viewstate.dfy ===
/**
 The calendar's state and its transitions: the week anchor set from today's
 date at start-up and moved by the Previous and Next buttons, and the detail
 panel opened from a column's "more" button, switched by the day selector and
 closed. The state is a value; each user action is a function from state to
 state, and `Render` derives what the page shows.
 */
module CalendarState {
  import opened Wrappers
  import opened Gregorian
  import opened DateKeys
  import opened WeekAnchor
  import opened WeekView
  import opened DetailPanel

  /**
   The panel: closed, or open on `key`. `listed` is the anchor of the week
   whose days the selector was filled with when the panel opened; the
   Previous and Next buttons do not refill it.
   */
  datatype Panel = Closed | Open(key: string, listed: Date)

  datatype View = View(anchor: Date, panel: Panel)

  /** `key` is the key of one of the five days of the week starting at `anchor`. */
  predicate Visible(anchor: Date, key: string)
    requires Valid(anchor)
  {
    exists i :: 0 <= i < DaysShown && Key(DayAt(anchor, i)) == key
  }

  /** The anchor is a Monday, and an open panel shows one of the days its selector lists. */
  predicate Consistent(v: View) {
    && Valid(v.anchor) && IsMonday(v.anchor)
    && (v.panel.Open? ==> Valid(v.panel.listed) && IsMonday(v.panel.listed) && Visible(v.panel.listed, v.panel.key))
  }

  /** Start-up: the week of today's date, panel closed. */
  function Start(today: Date): (v: View)
    requires Valid(today)
    ensures Consistent(v) && v.panel == Closed
    ensures v.anchor == MondayOf(today)
  {
    MondayOfIsMonday(today);
    View(MondayOf(today), Closed)
  }

  /** Next: the anchor moves forward seven days; the panel is left as it is. */
  function Next(v: View): (r: View)
    requires Consistent(v)
    ensures Consistent(r) && r.panel == v.panel
    ensures DayNumber(r.anchor) == DayNumber(v.anchor) + 7
  {
    NextPreviousInverse(v.anchor);
    View(NextAnchor(v.anchor), v.panel)
  }

  /** Previous: the anchor moves back seven days; the panel is left as it is. */
  function Previous(v: View): (r: View)
    requires Consistent(v)
    ensures Consistent(r) && r.panel == v.panel
    ensures DayNumber(r.anchor) + 7 == DayNumber(v.anchor)
  {
    NextPreviousInverse(v.anchor);
    View(PreviousAnchor(v.anchor), v.panel)
  }

  /** The "more" button of column `i`: the panel opens on that day, its selector filled with this week. */
  function OpenDay(v: View, i: int): (r: View)
    requires Consistent(v) && 0 <= i < DaysShown
    ensures Consistent(r) && r.anchor == v.anchor
    ensures r.panel == Open(Key(DayAt(v.anchor, i)), v.anchor)
  {
    View(v.anchor, Open(Key(DayAt(v.anchor, i)), v.anchor))
  }

  /** Choosing entry `i` of the selector: the panel stays open and shows that day. */
  function SelectDay(v: View, i: int): (r: View)
    requires Consistent(v) && v.panel.Open? && 0 <= i < DaysShown
    ensures Consistent(r) && r.anchor == v.anchor
    ensures r.panel.Open? && r.panel.listed == v.panel.listed
    ensures r.panel.key == DayOptions(v.panel.listed, v.panel.key)[i].value
  {
    var listed := v.panel.listed;
    assert DayOptions(listed, v.panel.key)[i] == DayOption(listed, i, v.panel.key);
    View(v.anchor, Open(Key(DayAt(listed, i)), listed))
  }

  /** The close button or a click on the backdrop. */
  function Close(v: View): (r: View)
    ensures r.panel == Closed && r.anchor == v.anchor
    ensures Consistent(v) ==> Consistent(r)
  {
    View(v.anchor, Closed)
  }

  /** The open panel: the selector entries and the header and body of the shown day. */
  datatype PanelScreen = PanelScreen(options: seq<SelectOption>, content: PanelView)

  /** What the page shows: the five columns and, when open, the panel. */
  datatype Screen = Screen(week: seq<Column>, panel: Option<PanelScreen>)

  /**
   The page for state `v`: the five columns of the anchor's week and, when
   the panel is open, the selector filled from its listed week and the panel
   for its key.
   */
  function Render(v: View, table: Schedule): (s: Screen)
    requires Consistent(v)
    ensures |s.week| == DaysShown
    ensures forall i :: 0 <= i < DaysShown ==> Valid(s.week[i].date) && DayNumber(s.week[i].date) == DayNumber(v.anchor) + i
    ensures s.panel.None? <==> v.panel.Closed?
    ensures s.panel.Some? ==> |s.panel.value.options| == DaysShown
    ensures v.panel.Open? ==> s.panel.value.options == DayOptions(v.panel.listed, v.panel.key)
    ensures v.panel.Open? ==> s.panel.value.content == ShowPanel(table, v.panel.key)
  {
    var panel := match v.panel
      case Closed => None
      case Open(key, listed) => Some(PanelScreen(DayOptions(listed, key), ShowPanel(table, key)));
    Screen(Week(v.anchor, table), panel)
  }

  /** Today's own column is on screen after start-up exactly when today is a weekday. */
  lemma StartShowsToday(today: Date)
    requires Valid(today)
    ensures Visible(Start(today).anchor, Key(today)) <==> 1 <= Weekday(today) <= 5
  {
    MondayOfIsMonday(today);
    VisibleFromMonday(Start(today).anchor, today);
  }

  /** A day of a Monday's seven-day week is among its five columns exactly when it is Monday to Friday. */
  lemma VisibleFromMonday(m: Date, d: Date)
    requires Valid(m) && Valid(d) && IsMonday(m)
    requires DayNumber(m) <= DayNumber(d) < DayNumber(m) + 7
    ensures Visible(m, Key(d)) <==> 1 <= Weekday(d) <= 5
  {
    var k := DayNumber(d) - DayNumber(m);
    AddDaysUnique(m, k, d);
    WeekdayAddDays(m, k);
    OffsetWeekday(k);
    if Visible(m, Key(d)) {
      var i :| 0 <= i < DaysShown && Key(DayAt(m, i)) == Key(d);
      KeyInjective(DayAt(m, i), d);
    }
    if 1 <= Weekday(d) <= 5 {
      assert DayAt(m, k) == d;
      assert Key(DayAt(m, k)) == Key(d);
    }
  }

  /** Weekday `(1 + k) % 7` of the day `k` after a Monday is Monday to Friday exactly for `k < 5`. */
  lemma OffsetWeekday(k: int)
    requires 0 <= k < 7
    ensures 1 <= (1 + k) % 7 <= 5 <==> k < DaysShown
  {
    if k == 6 {
      assert (1 + k) % 7 == 0;
    } else {
      NoWrap(1, k);
    }
  }

  /** Previous undoes Next and Next undoes Previous. */
  lemma NextPreviousRoundTrip(v: View)
    requires Consistent(v)
    ensures Previous(Next(v)) == v
    ensures Next(Previous(v)) == v
  {
    NextPreviousInverse(v.anchor);
  }

  /** Two Next then two Previous show the same week again, column for column. */
  lemma TwoNextTwoPreviousRestoreWeek(v: View, table: Schedule)
    requires Consistent(v)
    ensures Render(Previous(Previous(Next(Next(v)))), table) == Render(v, table)
  {
    NextPreviousRoundTrip(Next(v));
    NextPreviousRoundTrip(v);
  }

  /** Choosing a day in the selector goes from one open panel straight to another, never through Closed. */
  lemma SelectKeepsPanelOpen(v: View, i: int)
    requires Consistent(v) && v.panel.Open? && 0 <= i < DaysShown
    ensures SelectDay(v, i).panel.Open?
    ensures SelectDay(SelectDay(v, i), i) == SelectDay(v, i)
  {
  }

  /** In an open panel exactly one selector entry is selected: the one for the shown day. */
  lemma OpenPanelSelectsShownDay(v: View, table: Schedule)
    requires Consistent(v) && v.panel.Open?
    ensures var opts := Render(v, table).panel.value.options;
      && (exists i :: 0 <= i < DaysShown && opts[i].selected && opts[i].value == v.panel.key)
      && (forall i, j :: 0 <= i < DaysShown && 0 <= j < DaysShown && opts[i].selected && opts[j].selected ==> i == j)
  {
    OpenPanelOptions(v, table);
    ExactlyOneSelected(v.panel.listed, v.panel.key);
  }

  /** An open panel renders the selector filled from its listed week. */
  lemma OpenPanelOptions(v: View, table: Schedule)
    requires Consistent(v) && v.panel.Open?
    ensures Render(v, table).panel.value.options == DayOptions(v.panel.listed, v.panel.key)
  {
  }

  /**
   Opening column `i` shows that column's header, and every booked slot of
   the day: the column's inline slots followed by the hidden ones.
   */
  lemma OpenDayShowsColumn(v: View, table: Schedule, i: int)
    requires Consistent(v) && 0 <= i < DaysShown
    ensures var c := Week(v.anchor, table)[i];
      var p := Render(OpenDay(v, i), table).panel.value.content;
      && p.header == Header(c.name, c.day, c.month)
      && (p.body.NoBookings? <==> c.key !in table)
      && (p.body.Listing? ==> p.body.slots == c.slots.shown + c.slots.hidden)
  {
    OpenDayPanel(v, table, i);
    WeekColumn(v.anchor, table, i);
    HeaderMatchesColumn(v.anchor, table, i);
    PanelMatchesColumn(v.anchor, table, i);
  }

  /** The panel that opening column `i` renders is the panel for that column's key. */
  lemma OpenDayPanel(v: View, table: Schedule, i: int)
    requires Consistent(v) && 0 <= i < DaysShown
    ensures Render(OpenDay(v, i), table).panel.value.content == ShowPanel(table, Key(DayAt(v.anchor, i)))
  {
  }
}

=== FILE: weekanchor.dfy ===
/**
 The week anchor: the Monday that starts the displayed week (`getSegunda`
 in scripts/calendar.js), and the one-week steps of the Previous and Next
 buttons.
 */
module WeekAnchor {
  import opened Gregorian

  /** `getDay()` with Sunday moved to 7: 1 is Monday, ..., 7 is Sunday. */
  function MondayBasedWeekday(d: Date): (w: int)
    requires Valid(d)
    ensures 1 <= w <= 7
    ensures w % 7 == Weekday(d)
  {
    var w := Weekday(d);
    if w == 0 then 7 else w
  }

  predicate IsMonday(d: Date)
    requires Valid(d)
  {
    Weekday(d) == 1
  }

  /** The Monday on or before `d`: `d` moved back `weekday - 1` days with calendar rollover. */
  function MondayOf(d: Date): (r: Date)
    requires Valid(d)
    ensures Valid(r)
    ensures DayNumber(d) - 6 <= DayNumber(r) <= DayNumber(d)
    ensures Weekday(d) == 0 ==> DayNumber(r) == DayNumber(d) - 6
  {
    AddDays(d, -(MondayBasedWeekday(d) - 1))
  }

  /** The anchor is a Monday, whatever day it is computed from. */
  lemma MondayOfIsMonday(d: Date)
    requires Valid(d)
    ensures IsMonday(MondayOf(d))
  {
    var back := MondayBasedWeekday(d) - 1;
    WeekdayAddDays(d, -back);
    MovedBackToMonday(Weekday(d), -back);
  }

  /** Moving back `weekday - 1` days (six from a Sunday) lands on weekday 1. */
  lemma MovedBackToMonday(w: int, n: int)
    requires 0 <= w < 7 && n == -(if w == 0 then 6 else w - 1)
    ensures (w + n) % 7 == 1
  {
  }

  /** Two Mondays less than a week apart are the same day. */
  lemma MondaysAWeekApart(a: Date, b: Date)
    requires Valid(a) && Valid(b) && IsMonday(a) && IsMonday(b)
    requires DayNumber(a) <= DayNumber(b) < DayNumber(a) + 7
    ensures a == b
  {
    SameResidueClose(DayNumber(a) + 1, DayNumber(b) + 1);
    DayNumberInjective(a, b);
  }

  /** Two numbers less than seven apart with the same remainder modulo 7 are equal. */
  lemma SameResidueClose(x: int, y: int)
    requires x % 7 == y % 7 && x <= y < x + 7
    ensures x == y
  {
    var k := y - x;
    assert y == 7 * (x / 7) + (x % 7 + k);
    ModShift(x % 7 + k, x / 7);
  }

  /** `MondayOf(d)` is the one Monday in the seven days ending at `d`. */
  lemma MondayOfCharacterization(d: Date, m: Date)
    requires Valid(d) && Valid(m)
    ensures m == MondayOf(d) <==> IsMonday(m) && DayNumber(d) - 6 <= DayNumber(m) <= DayNumber(d)
  {
    var r := MondayOf(d);
    MondayOfIsMonday(d);
    if IsMonday(m) && DayNumber(d) - 6 <= DayNumber(m) <= DayNumber(d) {
      if DayNumber(m) <= DayNumber(r) {
        MondaysAWeekApart(m, r);
      } else {
        MondaysAWeekApart(r, m);
      }
    }
  }

  /** A date is its own anchor exactly when it is a Monday; so `MondayOf` is idempotent. */
  lemma MondayOfFixesMondays(d: Date)
    requires Valid(d)
    ensures IsMonday(d) <==> MondayOf(d) == d
    ensures MondayOf(MondayOf(d)) == MondayOf(d)
  {
    MondayOfCharacterization(d, d);
    MondayOfIsMonday(d);
    MondayOfCharacterization(MondayOf(d), MondayOf(d));
  }

  /** Every day of a Monday's week, Monday to Sunday, is anchored at that Monday. */
  lemma MondayOfWithinWeek(m: Date, i: int)
    requires Valid(m) && IsMonday(m) && 0 <= i < 7
    ensures MondayOf(AddDays(m, i)) == m
  {
    MondayOfCharacterization(AddDays(m, i), m);
  }

  // ---------------------------------------------------------------------------
  // Previous and Next move the anchor seven days back or forward in place.

  function NextAnchor(a: Date): (r: Date)
    requires Valid(a)
    ensures Valid(r) && DayNumber(r) == DayNumber(a) + 7
  {
    AddDays(a, 7)
  }

  function PreviousAnchor(a: Date): (r: Date)
    requires Valid(a)
    ensures Valid(r) && DayNumber(r) + 7 == DayNumber(a)
  {
    AddDays(a, -7)
  }

  /** A move by whole weeks, for any number of weeks; the buttons move by one. */
  function AdvanceWeeks(a: Date, weeks: int): (r: Date)
    requires Valid(a)
    ensures Valid(r) && DayNumber(r) == DayNumber(a) + 7 * weeks
  {
    AddDays(a, 7 * weeks)
  }

  /** Moving by whole weeks keeps the day of the week, so an anchor stays a Monday. */
  lemma AdvanceWeeksKeepsWeekday(a: Date, weeks: int)
    requires Valid(a)
    ensures Weekday(AdvanceWeeks(a, weeks)) == Weekday(a)
    ensures IsMonday(a) ==> IsMonday(AdvanceWeeks(a, weeks))
  {
    WeekdayAddDays(a, 7 * weeks);
    ModShift(Weekday(a), weeks);
  }

  lemma NextPreviousAreWeekMoves(a: Date)
    requires Valid(a)
    ensures NextAnchor(a) == AdvanceWeeks(a, 1)
    ensures PreviousAnchor(a) == AdvanceWeeks(a, -1)
  {
    DayNumberInjective(NextAnchor(a), AdvanceWeeks(a, 1));
    DayNumberInjective(PreviousAnchor(a), AdvanceWeeks(a, -1));
  }

  /** Next and Previous keep the anchor a Monday and undo each other. */
  lemma NextPreviousInverse(a: Date)
    requires Valid(a)
    ensures IsMonday(a) ==> IsMonday(NextAnchor(a)) && IsMonday(PreviousAnchor(a))
    ensures PreviousAnchor(NextAnchor(a)) == a
    ensures NextAnchor(PreviousAnchor(a)) == a
  {
    NextPreviousAreWeekMoves(a);
    AdvanceWeeksKeepsWeekday(a, 1);
    AdvanceWeeksKeepsWeekday(a, -1);
    DayNumberInjective(PreviousAnchor(NextAnchor(a)), a);
    DayNumberInjective(NextAnchor(PreviousAnchor(a)), a);
  }

  /** Moves by whole weeks compose additively. */
  lemma AdvanceWeeksCompose(a: Date, m: int, n: int)
    requires Valid(a)
    ensures AdvanceWeeks(AdvanceWeeks(a, m), n) == AdvanceWeeks(a, m + n)
  {
    DayNumberInjective(AdvanceWeeks(AdvanceWeeks(a, m), n), AdvanceWeeks(a, m + n));
  }

  // ---------------------------------------------------------------------------
  // `getSegunda` as written rebuilds its result with the year-month-day `Date` constructor.

  /** The year the `Date(year, month, day)` constructor uses: 0..99 are read as 1900..1999. */
  function ConstructorYear(y: int): (r: int)
    ensures (0 <= y <= 99) == (r != y)
  {
    if 0 <= y <= 99 then 1900 + y else y
  }

  /** `new Date(y, m - 1, day)`: day `day` counted from the first of the month, with rollover. */
  function ConstructDate(y: int, m: int, day: int): (r: Date)
    requires 1 <= m <= 12
    ensures Valid(r)
    ensures DayNumber(r) == DayNumber(Date(ConstructorYear(y), m, 1)) + day - 1
  {
    AddDays(Date(ConstructorYear(y), m, 1), day - 1)
  }

  /** `getSegunda` exactly as written, constructor year rule included. */
  function MondayOfAsWritten(d: Date): (r: Date)
    requires Valid(d)
    ensures Valid(r)
  {
    ConstructDate(d.year, d.month, d.day - (MondayBasedWeekday(d) - 1))
  }

  /**
   The as-written function agrees with `MondayOf` except in years 0..99,
   where the constructor moves the result into 1900..1999.
   */
  lemma MondayOfAsWrittenDiffers(d: Date)
    requires Valid(d)
    ensures MondayOfAsWritten(d) == MondayOf(d) <==> !(0 <= d.year <= 99)
  {
    var w, r := MondayOfAsWritten(d), MondayOf(d);
    var first := Date(ConstructorYear(d.year), d.month, 1);
    if 0 <= d.year <= 99 {
      DayNumberInYear(d);
      DaysBeforeYearMonotone(d.year + 1, 100);
      DayNumberInYear(first);
      DaysBeforeYearMonotone(1900, first.year);
      assert DaysBeforeYear(100) < DaysBeforeYear(1900) - 400;
      assert DayNumber(w) != DayNumber(r);
    } else {
      assert DayNumber(first) + d.day - 1 == DayNumber(d);
      DayNumberInjective(w, r);
    }
  }

  /** A concrete witness: for 0050-06-15 the as-written result lies in June 1950. */
  lemma MondayOfAsWrittenExample()
    ensures MondayOfAsWritten(Date(50, 6, 15)).year == 1950
    ensures MondayOf(Date(50, 6, 15)).year == 50
  {
    var d := Date(50, 6, 15);
    var w, r := MondayOfAsWritten(d), MondayOf(d);
    var first := Date(1950, 6, 1);
    assert DayNumber(first) + 8 <= DayNumber(w) <= DayNumber(first) + 14;
    DayNumberOrder(w, first);
    DayNumberOrder(w, Date(1950, 6, 30));
    DayNumberOrder(r, Date(50, 6, 15));
    DayNumberOrder(r, Date(50, 6, 1));
  }
}

=== FILE: weekview.dfy ===
/**
 The displayed week (`renderSemana` in scripts/calendar.js): five columns,
 Monday to Friday, each with its position label, two-digit day and month,
 lookup key and the booked slots of that day, the first three inline and
 the rest behind the "more" button.
 */
module WeekView {
  import opened Wrappers
  import opened Decimal
  import opened Gregorian
  import opened DateKeys
  import opened WeekAnchor
  import opened Slots

  /** The booking table: day key to the booked `HH:MM` slots, in stored order. */
  type Schedule = map<string, seq<string>>

  /** The number of columns: Monday to Friday. */
  const DaysShown: nat := 5

  /** Column labels by offset from the week's Monday. */
  const DayLabels: seq<string> := ["Seg", "Ter", "Qua", "Qui", "Sex"]

  /** Month texts by month number minus one. */
  const MonthTexts: seq<string> := ["01", "02", "03", "04", "05", "06", "07", "08", "09", "10", "11", "12"]

  lemma TwoDigitValue(s: string)
    requires |s| == 2 && AllDigits(s)
    ensures ToNat(s) == 10 * DigitValue(s[0]) + DigitValue(s[1])
  {
    var init := s[..1];
    assert init[..0] == [] && init[0] == s[0];
    assert ToNat(init) == DigitValue(s[0]);
  }

  /** Two two-digit texts with the same value are the same text. */
  lemma TwoDigitTextsUnique(s: string, t: string)
    requires |s| == 2 && |t| == 2 && AllDigits(s) && AllDigits(t) && ToNat(s) == ToNat(t)
    ensures s == t
  {
    TwoDigitValue(s);
    TwoDigitValue(t);
    assert s == [s[0], s[1]] && t == [t[0], t[1]];
  }

  /** The month table holds exactly the zero-padded month numbers. */
  lemma MonthTextIsTwoDigits(m: int)
    requires 1 <= m <= 12
    ensures MonthTexts[m - 1] == TwoDigits(m)
  {
    var s := MonthTexts[m - 1];
    assert |s| == 2 && AllDigits(s);
    TwoDigitValue(s);
    assert ToNat(s) == m;
    TwoDigitTextsUnique(s, TwoDigits(m));
  }

  /** The day at offset `i` from the anchor, with month and year rollover. */
  function DayAt(anchor: Date, i: int): (d: Date)
    requires Valid(anchor)
    ensures Valid(d) && DayNumber(d) == DayNumber(anchor) + i
  {
    AddDays(anchor, i)
  }

  /** The zero-padded day of the month. */
  function DayText(d: Date): (t: string)
    requires Valid(d)
    ensures |t| == 2 && AllDigits(t) && ToNat(t) == d.day
  {
    TwoDigits(d.day)
  }

  /** The month text, read from the month table. */
  function MonthText(d: Date): (t: string)
    requires Valid(d)
    ensures |t| == 2 && AllDigits(t) && ToNat(t) == d.month
  {
    MonthTextIsTwoDigits(d.month);
    MonthTexts[d.month - 1]
  }

  /** The booked slots of a day in ascending order; a day without an entry has none. */
  function SortedSlots(table: Schedule, key: string): (r: seq<string>)
    ensures Sorted(r)
    ensures key in table ==> multiset(r) == multiset(table[key])
    ensures key !in table ==> r == []
  {
    if key in table then Sort(table[key]) else []
  }

  datatype Column = Column(date: Date, name: string, day: string, month: string, key: string, slots: Preview)

  /** The column at offset `i`. */
  function DayColumn(anchor: Date, i: int, table: Schedule): (c: Column)
    requires Valid(anchor) && 0 <= i < DaysShown
    ensures Valid(c.date) && DayNumber(c.date) == DayNumber(anchor) + i
    ensures c.name == DayLabels[i]
    ensures |c.day| == 2 && AllDigits(c.day) && ToNat(c.day) == c.date.day
    ensures |c.month| == 2 && AllDigits(c.month) && ToNat(c.month) == c.date.month
    ensures c.key == Key(c.date)
  {
    var d := DayAt(anchor, i);
    var key := Key(d);
    Column(d, DayLabels[i], DayText(d), MonthText(d), key, Split(SortedSlots(table, key)))
  }

  /** The five columns of the week starting at `anchor`. */
  function Week(anchor: Date, table: Schedule): (w: seq<Column>)
    requires Valid(anchor)
    ensures |w| == DaysShown
    ensures forall i :: 0 <= i < |w| ==> Valid(w[i].date) && DayNumber(w[i].date) == DayNumber(anchor) + i
  {
    seq(DaysShown, i requires 0 <= i < DaysShown => DayColumn(anchor, i, table))
  }

  /** The week starts at the anchor and its columns are consecutive calendar days. */
  lemma WeekConsecutive(anchor: Date, table: Schedule, i: int)
    requires Valid(anchor) && 0 <= i < DaysShown - 1
    ensures Week(anchor, table)[0].date == anchor
    ensures Week(anchor, table)[i + 1].date == AddDays(Week(anchor, table)[i].date, 1)
  {
    var w := Week(anchor, table);
    DayNumberInjective(w[0].date, anchor);
    AddDaysUnique(w[i].date, 1, w[i + 1].date);
  }

  /** Column `i` of the week is the column computed for offset `i`. */
  lemma WeekColumn(anchor: Date, table: Schedule, i: int)
    requires Valid(anchor) && 0 <= i < DaysShown
    ensures Week(anchor, table)[i] == DayColumn(anchor, i, table)
    ensures Week(anchor, table)[i].date == DayAt(anchor, i)
    ensures Week(anchor, table)[i].key == Key(DayAt(anchor, i))
  {
  }

  /** Every key of the week reads back as its column's date, and no two columns share a key. */
  lemma WeekKeys(anchor: Date, table: Schedule, i: int, j: int)
    requires Valid(anchor) && 0 <= i < DaysShown && 0 <= j < DaysShown
    ensures ParseKey(Week(anchor, table)[i].key) == Some(Week(anchor, table)[i].date)
    ensures Week(anchor, table)[i].key == Week(anchor, table)[j].key <==> i == j
  {
    WeekColumn(anchor, table, i);
    WeekColumn(anchor, table, j);
    DayKeysDistinct(anchor, i, j);
  }

  lemma DayKeysDistinct(anchor: Date, i: int, j: int)
    requires Valid(anchor)
    ensures Key(DayAt(anchor, i)) == Key(DayAt(anchor, j)) <==> i == j
  {
    var a, b := DayAt(anchor, i), DayAt(anchor, j);
    KeyInjective(a, b);
    assert a == b ==> DayNumber(a) == DayNumber(b);
  }

  /** From a Monday anchor the columns are Monday to Friday: weekday `i + 1`. */
  lemma WeekWeekdays(anchor: Date, table: Schedule, i: int)
    requires Valid(anchor) && IsMonday(anchor) && 0 <= i < DaysShown
    ensures Weekday(Week(anchor, table)[i].date) == i + 1
  {
    WeekColumn(anchor, table, i);
    WeekdayAddDays(anchor, i);
    NoWrap(1, i);
  }

  lemma NoWrap(w: int, i: int)
    requires 0 <= w && 0 <= i && w + i < 7
    ensures (w + i) % 7 == w + i
  {
  }

  /** A column shows at most three slots; together with the hidden ones they are the day's sorted bookings. */
  lemma ColumnSlots(anchor: Date, i: int, table: Schedule)
    requires Valid(anchor) && 0 <= i < DaysShown
    ensures var c := DayColumn(anchor, i, table);
      && |c.slots.shown| <= InlineCount
      && (c.key !in table ==> c.slots.shown == [] && c.slots.hidden == [])
      && (c.key in table ==>
            && Sorted(c.slots.shown + c.slots.hidden)
            && multiset(c.slots.shown + c.slots.hidden) == multiset(table[c.key])
            && |c.slots.hidden| == if |table[c.key]| < InlineCount then 0 else |table[c.key]| - InlineCount)
  {
    var c := DayColumn(anchor, i, table);
    if c.key in table {
      var r := SortedSlots(table, c.key);
      assert |r| == |multiset(r)| == |multiset(table[c.key])| == |table[c.key]|;
    }
  }
}

=== FILE: wrappers.dfy ===
/** The optional-value datatype shared by the parsers and views. */
module Wrappers {

  datatype Option<+T> = None | Some(value: T)
}
